=== FILE: README.md ===
# Voice-conversation analytics: metrics reducer and telemetry relay, in Dafny

This project models the two stateful pieces of a voice-conversation analytics pipeline.

- **The analytics assistant's metrics reducer** (`SimpleAnalyticsAssistant._update_metrics`).
  It consumes speech-activity event tags (`conversation_start`, `user_speech_start`,
  `user_speech_end`, `agent_speech_start`, `agent_speech_end`, `interruption`, `pause`).
  From them it keeps a `ConversationMetrics` record and the assistant's hidden turn timer.
  After every event it publishes a `metrics_update` snapshot when its Socket.IO client is connected,
  and on request it produces a spoken summary.
- **The Socket.IO telemetry relay.** It keeps a registry of connected session ids. It greets
  each newcomer and acknowledges analytics requests, both only to the requester. It rebroadcasts
  `metrics_update` and `log_message` to everyone except the sender. A stateless variant keeps no
  registry and relays only `metrics_update`.

The reducer is the pure function `Metrics.Apply(state, event, now)`. The wall clock is the
argument `now`, a real number of seconds. The full handler `Dashboard.UpdateMetrics` adds the
string-tag dispatch and the messages the Socket.IO client emits. The relay handlers are pure
functions. Each returns the new registry and the set of deliveries, one
(recipient, event name, payload) per socket reached. `Relay.Fanout` lists a broadcast as a
sequence with each recipient exactly once.

Files:

- `messages.dfy`: shared event and message types.
- `metrics.dfy`: the metrics record, tag dispatch and `Apply`.
- `metrics_properties.dfy`: per-event effects, the state invariant, and lemmas over runs of events.
- `dashboard.dfy`: the snapshot, duration split and rendering, the full handler with send gating,
  and the summary.
- `relay.dfy`: the registry relay's handlers and the broadcast fan-out.
- `relay_runs.dfy`: registry membership over whole runs.
- `stateless_relay.dfy`: the stateless relay variant.
- `pipeline.dfy`: an assistant's emissions passing through the relay.

Behaviours of the code that the model keeps:

- A user-speech end does not close the turn timer. A second end measures again from the same start.
- A pause sends a log line only when it sets a new maximum, not on every pause.
- The summary is not silent. When connected, it sends two log lines, except in the no-data case.
- The stateless relay's welcome carries only a fixed message, with no timestamp or client count.

## Model

| member | source | states |
|---|---|---|
| Metrics.Classify | simple_analytics_agent.py:66-122 | the tag chain: a known tag gives its event, every other tag is unrecognised; a pause's duration defaults to 0 |
| Metrics.ClassifyRecoversEvent | simple_analytics_agent.py:73-119 | tag and classification are inverse on every event the dispatcher can produce |
| Metrics.Apply | simple_analytics_agent.py:66-122 | one event: total speaking time grows by the user growth plus the agent growth; turn count grows by one only on a user end with a recorded start; interruptions grow by one only on an interruption; longest pause never decreases, covers the pause, and is logged exactly when it strictly grows; no log line means no state change |
| MetricsProperties.ConversationStartEffect | simple_analytics_agent.py:73-77 | a conversation start records the clock in the metrics and in the assistant's own copy, logs "Conversation started", and changes nothing else |
| MetricsProperties.UserSpeechStartEffect | simple_analytics_agent.py:79-83 | a user-speech start sets the turn timer and the last user speech to the clock, logs it, and changes no duration or counter |
| MetricsProperties.AgentSpeechStartEffect | simple_analytics_agent.py:99-102 | an agent-speech start records the clock as the last agent speech, logs it, and changes nothing else |
| MetricsProperties.AgentUtterance | simple_analytics_agent.py:99-110 | an agent start at t0 followed by an agent end at t1 adds exactly t1 - t0 to agent and total time, and leaves user time and turns alone |
| MetricsProperties.UserSpeechEndEffect | simple_analytics_agent.py:85-97 | with a turn start recorded, the whole transition: user and total time each grow by d = now minus the start, the turn count by exactly 1, the average becomes user time over turns, every other field (start time, timers, agent time) is kept, and the log line carries d |
| MetricsProperties.UserSpeechEndWithoutStart | simple_analytics_agent.py:85-88 | a user end before any user start changes nothing and logs nothing |
| MetricsProperties.RepeatedUserSpeechEnd | simple_analytics_agent.py:82-91 | because the turn timer is never cleared, two ends re-add the time since the same start and count two turns |
| MetricsProperties.AgentSpeechEndEffect | simple_analytics_agent.py:104-110 | an agent end adds d = now minus the last agent start to agent and total time and nothing else, and logs d; with no agent start it is a no-op |
| MetricsProperties.InterruptionEffect | simple_analytics_agent.py:112-115 | an interruption increments the counter by exactly 1, leaves every other field unchanged, and logs the interruption line |
| MetricsProperties.PauseEffect | simple_analytics_agent.py:117-122 | a pause sets longest pause to the max of the old value and the duration, changes nothing else, and logs exactly on a strict increase |
| MetricsProperties.StartTimesFramed | simple_analytics_agent.py:73-122 | no event but a conversation start changes the recorded start time, and no event but an agent-speech start changes the last agent speech |
| MetricsProperties.StartKeptWithoutRestart | simple_analytics_agent.py:73-122 | a run of events without a conversation start keeps the recorded start time |
| MetricsProperties.UnrecognisedIsNoOp | simple_analytics_agent.py:73-122 | a tag matching no branch changes no state and sends no log line |
| MetricsProperties.FreshIsValid | simple_analytics_agent.py:24-60 | the dataclass defaults and the two unset timers satisfy the state invariant |
| MetricsProperties.ApplyPreservesValid | simple_analytics_agent.py:66-122 | under a non-decreasing clock every event keeps total = user + agent, non-negative durations, average = user / turns (0 before any turn), the turn timer equal to the last user-speech time, and user and agent time non-decreasing |
| MetricsProperties.AverageBounded | simple_analytics_agent.py:93-95 | in every reachable state the average turn length lies between 0 and the user speaking time |
| MetricsProperties.RunPreservesValid | simple_analytics_agent.py:66-122 | the invariant holds after every chronological run of events |
| MetricsProperties.SpeakingTimeSplit | simple_analytics_agent.py:29-33 | for any interleaving of events from the defaults, total = user + agent, and the average is user time over turns once a turn has completed, else 0 |
| MetricsProperties.InterruptionsCounted | simple_analytics_agent.py:112-115 | after a run, the interruption counter equals its start value plus the number of interruption events |
| MetricsProperties.LongestPauseIsMaximum | simple_analytics_agent.py:117-122 | from the defaults, longest pause is at least every pause seen and is either 0 or one of the pause durations |
| MetricsProperties.UserChannel | simple_analytics_agent.py:79-95 | from the defaults, the turn timer is the most recent user start, the turn count is the number of user ends preceded by some start, and user time sums each such end minus the most recent start |
| MetricsProperties.OnePairedTurn | simple_analytics_agent.py:79-95 | one start/end pair adds its length to user and total time, counts one turn and leaves agent time unchanged |
| MetricsProperties.PairedTurns | simple_analytics_agent.py:79-95 | n paired turns add the sum of their lengths to user and total time, add n turns, leave agent time, and leave the average at user time over turns |
| MetricsProperties.PairedTurnsFromFresh | simple_analytics_agent.py:85-95 | from the defaults, n paired turns give user time = the sum of lengths, turns = n and average = sum / n |
| MetricsProperties.ScenarioOneExchange | simple_analytics_agent.py:73-110 | start, user 0..3 s, agent 3..5 s gives user 3, agent 2, total 5, 1 turn, average 3, pause 0, no interruptions |
| MetricsProperties.ScenarioTwoPauses | simple_analytics_agent.py:117-122 | pauses of 2.0 s then 0.5 s leave longest pause at 2.0 s |
| Dashboard.SplitDuration | simple_analytics_agent.py:159-161 | the flooring split of a duration: seconds in [0, 60), minutes*60 + seconds = floor of the duration, minutes non-negative for a non-negative duration |
| Dashboard.ConversationDuration | simple_analytics_agent.py:156-162 | the duration field is "N/A" exactly when no start is recorded, else a minute/second split of now minus the start |
| Dashboard.NatToDecimal | simple_analytics_agent.py:162 | the decimal rendering of a number is a non-empty string of digits, with no leading zero unless the number is 0 |
| Dashboard.DecimalRoundTrip | simple_analytics_agent.py:162 | reading back the decimal rendering of a number gives the number |
| Dashboard.IntToDecimal | simple_analytics_agent.py:162 | the rendering of an integer starts with a minus sign exactly when it is negative, and is otherwise digits with no leading zero unless the integer is 0 |
| Dashboard.IntRoundTrip | simple_analytics_agent.py:162 | reading back the rendering of any integer, negative ones included, gives the integer |
| Dashboard.RenderDuration | simple_analytics_agent.py:157-162 | the rendered duration is "N/A" if and only if no start was recorded; a "{m}m {s}s" text never equals it |
| Dashboard.SplitAtFirstFinds | simple_analytics_agent.py:162 | a helper of the duration parse-back: in a rendered "{m}m {s}s" text, whose minutes contain no `m`, the first `m` is the separator after the minutes |
| Dashboard.DurationRoundTrip | simple_analytics_agent.py:157-162 | the "N/A" or "{m}m {s}s" text reads back as the duration it renders, so different durations never share a text |
| Dashboard.SnapshotOf | simple_analytics_agent.py:164-177 | the payload is typed `metrics_update`, stamped now, carries the duration split, and its data fields copy the metric fields verbatim |
| Dashboard.DurationCountsFromStart | simple_analytics_agent.py:156-162 | after a conversation start at t0 and any events other than a new start, a snapshot taken at time now shows minutes and seconds that split the floor of now - t0 |
| Dashboard.SnapshotKeepsInvariant | simple_analytics_agent.py:164-177 | a snapshot of a reachable state shows total = user + agent, the average as user over turns, and non-negative minutes |
| Dashboard.UpdateMetrics | simple_analytics_agent.py:66-154 | the handler's new state is Apply of the classified tag; disconnected, nothing is sent; connected, one or two messages are sent, the last being the full snapshot of the new state at that time, and the first being the event's own log line exactly when the event produced one |
| Dashboard.UpdateIgnoresConnection | simple_analytics_agent.py:139-154 | metric updates happen whether or not the socket is connected |
| Dashboard.UnrecognisedTagStillSendsSnapshot | simple_analytics_agent.py:123-125 | an unknown tag changes no state but still sends exactly one snapshot |
| Dashboard.PauseLogOnlyOnNewMaximum | simple_analytics_agent.py:117-125 | a pause sends its "new longest pause" line, before the snapshot, exactly when its duration exceeds the longest pause |
| Dashboard.GetAnalyticsSummary | simple_analytics_agent.py:181-211 | the sentinel with nothing sent when no start is recorded; else minutes and seconds with the split property and every metric field copied, plus two log lines when connected |
| Dashboard.SummaryString | simple_analytics_agent.py:186-187 | text is produced exactly for the no-data summary, and that text is "No conversation data available yet." |
| Dashboard.SummaryAgreesWithSnapshot | simple_analytics_agent.py:186-192 | at the same time, summary and snapshot agree: no data exactly when "N/A", otherwise the same minutes and seconds |
| Dashboard.SummaryIgnoresConnection | simple_analytics_agent.py:181-211 | the connection decides only what is sent, never the summary; the sentinel is returned exactly when no start is recorded |
| Relay.Copies | socketio_server.py:53 | one copy per recipient: the recipients are exactly the given sockets, each with the unchanged payload |
| Relay.CopiesCardinality | socketio_server.py:53 | the number of deliveries equals the number of recipients |
| Relay.EmitSkipping | socketio_server.py:53 | a skip-sid emit reaches exactly the audience minus the sender, never the sender, with the payload unchanged |
| Relay.OnConnect | socketio_server.py:21-34 | the sid is added and nothing else changes; the size grows by one unless already present; only the sid is welcomed, with client_count equal to the size after insertion |
| Relay.OnDisconnect | socketio_server.py:36-42 | the sid is removed and nothing else changes; an absent sid leaves the registry unchanged; nothing is sent |
| Relay.OnMetricsUpdate | socketio_server.py:44-53 | the payload goes unchanged to exactly the registry minus the sender, and the registry is unchanged |
| Relay.OnLogMessage | socketio_server.py:55-64 | the payload goes unchanged to exactly the registry minus the sender, and the registry is unchanged |
| Relay.OnRequestAnalytics | socketio_server.py:66-77 | one `analytics_request_received` acknowledgement to the requester only, and the registry is unchanged |
| Relay.Handle | socketio_server.py:21-77 | only connect and disconnect touch the registry; connect sends exactly the welcome with the post-insertion count to the sid, disconnect sends nothing, metrics_update and log_message are skip-sid broadcasts, request_analytics sends exactly the acknowledgement to the sid, and an event with no handler sends nothing |
| Relay.NoEcho | socketio_server.py:44-64 | a relayed message never returns to its sender and reaches each other registered socket exactly once |
| Relay.DirectRepliesOnlyToSender | socketio_server.py:21-77 | the welcome and the acknowledgement reach only the sid that raised the event |
| Relay.DisconnectIdempotent | socketio_server.py:41 | discarding a sid twice is discarding it once |
| Relay.AfterDisconnect | socketio_server.py:26-53 | after b disconnects, a's broadcasts reach the registry minus a and b, and a newcomer's count excludes b |
| Relay.Fanout | socketio_server.py:53 | the broadcast as a list: its length is the audience minus the sender, recipients are pairwise distinct, and it holds exactly the deliveries of the skip-sid emit |
| RelayRuns.StepMembership | socketio_server.py:26-41 | one event changes whether x is registered only if x itself connected or disconnected |
| RelayRuns.RegistryMembership | socketio_server.py:19-41 | from a fresh server, a sid is registered exactly when it connected and has not disconnected since |
| RelayRuns.CountsAfterRun | socketio_server.py:26-53 | after any run, a newcomer's count is the number of still-connected sids plus one, and a broadcast reaches exactly the other still-connected sids |
| StatelessRelay.Handle | server.py:10-22 | connect: one fixed welcome to the sid only; metrics_update: unchanged to every socket except the sender; any other event: nothing |
| StatelessRelay.MetricsRelayAgrees | server.py:19-22 | when the socket list equals the registry, both relays make identical metrics_update deliveries |
| StatelessRelay.OnlyMetricsRelayed | server.py:10-22 | log_message and request_analytics produce no deliveries here, while the registry relay does deliver them |
| StatelessRelay.DisconnectHasNoEffect | server.py:15-17 | disconnect sends nothing and keeps no client registry |
| Pipeline.AsIncoming | simple_analytics_agent.py:144-179 | every assistant emission is raised as a relayed event carrying the message unchanged: a log line as `log_message`, a snapshot as `metrics_update` |
| Pipeline.EmissionsReachDashboards | simple_analytics_agent.py:139-179 | every message the assistant sends for an event reaches each other registered dashboard unchanged, under its own event name, and never returns to the assistant |

## Left out

- LiveKit session wiring and the speech, language-model, synthesis and voice-activity plugins
  (`entrypoint`, `agent.py`). These are external pipelines; the model receives their events as input.
- Socket.IO and aiohttp transport: `_connect_socket`, `asyncio.create_task`, and the
  `start_server` loops. Whether the client is connected is a boolean parameter. Sends are outputs.
- Clock reads: `datetime.now()` becomes a parameter. The source reads the clock again for each
  log line and snapshot. The model uses the event's own reading for all of them.
- ISO-8601 rendering of timestamps: timestamps stay real numbers of seconds.
- Floating point: durations, sums and the average use exact real arithmetic, without rounding.
- Dashboard.SummaryString: only the no-data sentinel is rendered as text. The report paragraph
  and the log lines use `.1f` float formatting, which is left out. Log lines are a datatype
  carrying their numbers.
- A `pause` whose `duration` argument is not a number, which raises a `TypeError` in Python.
- Logging and `print` output of the relay servers.
- Relay.OnLogMessage: relays every payload. In the source, the handler logs `data.get('message', '')`
  before relaying. A payload that is not a dict raises `AttributeError` there, so nothing is relayed.
  Payloads are an opaque type parameter, and the assistant only sends dicts, so that failure is not modelled.
- The relay's broadcast audience is Socket.IO's own socket list. The registry relay takes it to
  equal `connected_clients`. The stateless relay receives it as a parameter.
- The unused `environ` argument of `connect`, and the unused `data` of `request_analytics`.
- Concurrency: handlers are modelled as atomic steps applied in arrival order.
- `api.py` (token signing via a library) and the React dashboard components.

=== FILE: dashboard.dfy ===
/**
 The read-outs of the analytics assistant and its sends to the dashboard:
 the `metrics_update` snapshot built after every event, the spoken summary,
 and the whole event handler, which classifies a tag, applies it and emits
 a log line and a snapshot when the Socket.IO client is connected.
 */
module Dashboard {
  import opened Messages
  import opened Metrics
  import MetricsProperties

  const MetricsUpdateType := "metrics_update"
  const NotAvailableText := "N/A"
  const NoDataText := "No conversation data available yet."

  // ---------------------------------------------------------------------
  // Conversation duration
  // ---------------------------------------------------------------------

  /** `int(d // 60)` and `int(d % 60)` for a duration `d` in seconds.
      Python's `//` and `%` floor, so the remainder is in [0, 60) and its
      truncation is its floor. */
  function SplitDuration(d: real): (ms: (int, int))
    ensures 0 <= ms.1 < 60
    ensures ms.0 * 60 + ms.1 == d.Floor
    ensures d >= 0.0 ==> ms.0 >= 0
  {
    var minutes := (d / 60.0).Floor;
    (minutes, (d - 60.0 * minutes as real).Floor)
  }

  /** The `conversation_duration` of a snapshot taken at `now`. */
  function ConversationDuration(m: ConversationMetrics, now: Time): (r: DurationText)
    ensures r.NotAvailable? <==> m.conversationStartTime.None?
    ensures r.MinutesSeconds? ==>
              && 0 <= r.seconds < 60
              && r.minutes * 60 + r.seconds == (now - m.conversationStartTime.value).Floor
              && (m.conversationStartTime.value <= now ==> r.minutes >= 0)
  {
    match m.conversationStartTime
    case None => NotAvailable
    case Some(start) =>
      var ms := SplitDuration(now - start);
      MinutesSeconds(ms.0, ms.1)
  }

  // ---------------------------------------------------------------------
  // Rendering "N/A" and "{m}m {s}s"
  // ---------------------------------------------------------------------

  predicate IsDigit(c: char) {
    '0' <= c <= '9'
  }

  /** Python's `str()` of a non-negative integer. */
  function NatToDecimal(n: nat): (r: string)
    ensures |r| > 0
    ensures forall i :: 0 <= i < |r| ==> IsDigit(r[i])
    ensures n > 0 ==> r[0] != '0'
    decreases n
  {
    var digit := ('0' as int + n % 10) as char;
    if n < 10 then [digit] else NatToDecimal(n / 10) + [digit]
  }

  /** The value of a string of decimal digits. */
  function DecimalValue(r: string): nat
    requires forall i :: 0 <= i < |r| ==> IsDigit(r[i])
    decreases |r|
  {
    if |r| == 0 then 0
    else
      assert IsDigit(r[|r| - 1]);
      DecimalValue(r[..|r| - 1]) * 10 + (r[|r| - 1] as int - '0' as int)
  }

  /** Reading back the decimal rendering of a number gives the number. */
  lemma {:induction false} DecimalRoundTrip(n: nat)
    ensures DecimalValue(NatToDecimal(n)) == n
    decreases n
  {
    var r := NatToDecimal(n);
    if n >= 10 {
      DecimalRoundTrip(n / 10);
      assert r[..|r| - 1] == NatToDecimal(n / 10);
    }
  }

  /** Python's `str()` of an integer. */
  function IntToDecimal(i: int): (r: string)
    ensures |r| > 0
    ensures forall k :: 0 <= k < |r| ==> IsDigit(r[k]) || r[k] == '-'
    ensures r[0] == '-' <==> i < 0
    ensures var digits := if i < 0 then r[1..] else r;
            && |digits| > 0
            && (forall k :: 0 <= k < |digits| ==> IsDigit(digits[k]))
            && (i != 0 ==> digits[0] != '0')
  {
    if i < 0 then "-" + NatToDecimal(-i) else NatToDecimal(i)
  }

  /** Reads an integer written as an optional minus sign and decimal digits. */
  function ParseInt(r: string): Option<int> {
    if |r| > 1 && r[0] == '-' && (forall k :: 1 <= k < |r| ==> IsDigit(r[k])) then
      var v: int := DecimalValue(r[1..]);
      Some(-v)
    else if |r| > 0 && forall k :: 0 <= k < |r| ==> IsDigit(r[k]) then
      Some(DecimalValue(r))
    else
      None
  }

  /** Reading back the rendering of an integer gives the integer. */
  lemma IntRoundTrip(i: int)
    ensures ParseInt(IntToDecimal(i)) == Some(i)
  {
    var r := IntToDecimal(i);
    if i < 0 {
      assert r[1..] == NatToDecimal(-i);
      DecimalRoundTrip(-i);
    } else {
      assert IsDigit(r[0]);
      DecimalRoundTrip(i);
    }
  }

  /** The text of a `conversation_duration` field: "N/A" or "{m}m {s}s". */
  function RenderDuration(d: DurationText): (r: string)
    ensures r == NotAvailableText <==> d.NotAvailable?
  {
    match d
    case NotAvailable => NotAvailableText
    case MinutesSeconds(m, s) =>
      var text := IntToDecimal(m) + "m " + IntToDecimal(s) + "s";
      assert text[|text| - 1] == 's';
      text
  }

  /** The text of `t` before its first `c`, and the text after it. */
  function SplitAtFirst(t: string, c: char): (r: Option<(string, string)>)
    ensures r.Some? ==> r.value.0 + [c] + r.value.1 == t && c !in r.value.0
    ensures r.None? ==> c !in t
    decreases |t|
  {
    if |t| == 0 then None
    else if t[0] == c then Some(([], t[1..]))
    else
      match SplitAtFirst(t[1..], c)
      case None => None
      case Some(p) => Some(([t[0]] + p.0, p.1))
  }

  /** Splitting at the first `c` finds the first `c`. */
  lemma {:induction false} SplitAtFirstFinds(a: string, c: char, b: string)
    requires c !in a
    ensures SplitAtFirst(a + [c] + b, c) == Some((a, b))
    decreases |a|
  {
    if |a| == 0 {
      assert a + [c] + b == [c] + b;
    } else {
      assert (a + [c] + b)[1..] == a[1..] + [c] + b;
      SplitAtFirstFinds(a[1..], c, b);
      assert [a[0]] + a[1..] == a;
    }
  }

  /** Reads a `conversation_duration` text back. */
  function ParseDuration(text: string): Option<DurationText> {
    if text == NotAvailableText then Some(NotAvailable)
    else if |text| == 0 || text[|text| - 1] != 's' then None
    else
      match SplitAtFirst(text[..|text| - 1], 'm')
      case None => None
      case Some(p) =>
        if |p.1| == 0 || p.1[0] != ' ' then None
        else
          match (ParseInt(p.0), ParseInt(p.1[1..]))
          case (Some(m), Some(sec)) => Some(MinutesSeconds(m, sec))
          case _ => None
  }

  /** The duration text reads back as the duration it renders, so two
      different durations never share a text. */
  lemma DurationRoundTrip(d: DurationText)
    ensures ParseDuration(RenderDuration(d)) == Some(d)
  {
    if d.MinutesSeconds? {
      var a := IntToDecimal(d.minutes);
      var b := IntToDecimal(d.seconds);
      var text := RenderDuration(d);
      assert text == a + "m " + b + "s";
      assert text[..|text| - 1] == a + ['m'] + (" " + b);
      assert forall k :: 0 <= k < |a| ==> a[k] != 'm';
      SplitAtFirstFinds(a, 'm', " " + b);
      assert (" " + b)[1..] == b;
      IntRoundTrip(d.minutes);
      IntRoundTrip(d.seconds);
    }
  }

  // ---------------------------------------------------------------------
  // Snapshot
  // ---------------------------------------------------------------------

  /** The `metrics_update` payload for metrics `m` at time `now`: the data
      fields are the metric fields, plus the rendered duration. */
  function SnapshotOf(m: ConversationMetrics, now: Time): (snap: Snapshot)
    ensures snap.messageType == MetricsUpdateType && snap.timestamp == now
    ensures snap.data.conversationDuration == ConversationDuration(m, now)
    ensures var d := snap.data;
            && d.totalSpeakingTime == m.totalSpeakingTime
            && d.userSpeakingTime == m.userSpeakingTime
            && d.agentSpeakingTime == m.agentSpeakingTime
            && d.turnCount == m.turnCount
            && d.averageTurnLength == m.averageTurnLength
            && d.longestPause == m.longestPause
            && d.interruptions == m.interruptions
  {
    Snapshot(MetricsUpdateType, now, SnapshotData(
      ConversationDuration(m, now),
      m.totalSpeakingTime,
      m.userSpeakingTime,
      m.agentSpeakingTime,
      m.turnCount,
      m.averageTurnLength,
      m.longestPause,
      m.interruptions))
  }

  /** A snapshot of a reachable state shows on the wire the same split of
      speaking time and the same average the state keeps. */
  lemma SnapshotKeepsInvariant(s: Assistant, clock: Time, now: Time)
    requires MetricsProperties.Valid(s, clock)
    requires clock <= now
    ensures var d := SnapshotOf(s.metrics, now).data;
            && d.totalSpeakingTime == d.userSpeakingTime + d.agentSpeakingTime
            && (d.turnCount > 0 ==> d.averageTurnLength == d.userSpeakingTime / d.turnCount as real)
            && (d.conversationDuration.MinutesSeconds? ==> d.conversationDuration.minutes >= 0)
  {
  }

  /** Once a conversation has started at `start`, every later snapshot
      measures its duration from that start, whatever events other than a
      new start came in between. */
  lemma DurationCountsFromStart(s: Assistant, start: Time, evs: seq<MetricsProperties.Timed>, now: Time)
    requires MetricsProperties.NoRestart(evs)
    ensures var later := MetricsProperties.Run(Apply(s, ConversationStart, start).next, evs);
            var d := SnapshotOf(later.metrics, now).data.conversationDuration;
            && d.MinutesSeconds?
            && d.minutes * 60 + d.seconds == (now - start).Floor
            && (start <= now ==> d.minutes >= 0)
  {
    MetricsProperties.StartKeptWithoutRestart(Apply(s, ConversationStart, start).next, evs);
  }

  // ---------------------------------------------------------------------
  // The event handler
  // ---------------------------------------------------------------------

  /** The state after one handled event and what was emitted for it. */
  datatype Step = Step(next: Assistant, sent: seq<Outgoing>)

  /** One call of the event handler with tag `tag` and optional `duration`
      keyword argument at time `now`. The metrics change whether or not the
      client is connected; only a connected client emits anything: the log
      line, if the event produced one, and then the snapshot. */
  function UpdateMetrics(s: Assistant, tag: string, duration: Option<real>, now: Time, connected: bool): (r: Step)
    ensures r.next == Apply(s, Classify(tag, duration), now).next
    ensures !connected ==> r.sent == []
    ensures connected ==>
              && 1 <= |r.sent| <= 2
              && r.sent[|r.sent| - 1].MetricsUpdate?
              && r.sent[|r.sent| - 1].snapshot.data.turnCount == r.next.metrics.turnCount
              && r.sent[|r.sent| - 1].snapshot.data.totalSpeakingTime == r.next.metrics.totalSpeakingTime
              && (|r.sent| == 2 <==> Apply(s, Classify(tag, duration), now).log.Some?)
    ensures connected ==> r.sent[|r.sent| - 1] == MetricsUpdate(SnapshotOf(r.next.metrics, now))
    ensures connected && |r.sent| == 2 ==>
              r.sent[0] == LogMessage(Apply(s, Classify(tag, duration), now).log.value, now)
  {
    var t := Apply(s, Classify(tag, duration), now);
    if !connected then
      Step(t.next, [])
    else
      var logs := if t.log.Some? then [LogMessage(t.log.value, now)] else [];
      Step(t.next, logs + [MetricsUpdate(SnapshotOf(t.next.metrics, now))])
  }

  /** Metric updates happen whether or not a socket is connected. */
  lemma UpdateIgnoresConnection(s: Assistant, tag: string, duration: Option<real>, now: Time)
    ensures UpdateMetrics(s, tag, duration, now, true).next == UpdateMetrics(s, tag, duration, now, false).next
  {
  }

  /** An unrecognised tag changes no state but still sends a snapshot. */
  lemma UnrecognisedTagStillSendsSnapshot(s: Assistant, tag: string, duration: Option<real>, now: Time)
    requires tag !in KnownTags
    ensures UpdateMetrics(s, tag, duration, now, true) == Step(s, [MetricsUpdate(SnapshotOf(s.metrics, now))])
  {
  }

  /** A pause sends its log line only when it sets a new maximum. */
  lemma PauseLogOnlyOnNewMaximum(s: Assistant, duration: Option<real>, now: Time)
    ensures var d := if duration.Some? then duration.value else 0.0;
            var r := UpdateMetrics(s, PauseTag, duration, now, true);
            && (|r.sent| == 2 <==> d > s.metrics.longestPause)
            && (|r.sent| == 2 ==> r.sent[0] == LogMessage(NewLongestPause(d), now))
  {
  }

  // ---------------------------------------------------------------------
  // Spoken summary
  // ---------------------------------------------------------------------

  datatype SummaryResult = SummaryResult(summary: Summary, sent: seq<Outgoing>)

  /** The analytics summary at time `now`: the sentinel when the
      conversation has not started (and nothing is sent), else the
      duration split and the metric fields, announced on the dashboard
      by two log lines when connected. */
  function GetAnalyticsSummary(s: Assistant, now: Time, connected: bool): (r: SummaryResult)
    ensures r.summary.NoData? <==> s.metrics.conversationStartTime.None?
    ensures r.summary.NoData? || !connected ==> r.sent == []
    ensures r.summary.Report? ==>
              var d := now - s.metrics.conversationStartTime.value;
              && 0 <= r.summary.seconds < 60
              && r.summary.minutes * 60 + r.summary.seconds == d.Floor
    ensures r.summary.Report? ==>
              && r.summary.totalSpeakingTime == s.metrics.totalSpeakingTime
              && r.summary.userSpeakingTime == s.metrics.userSpeakingTime
              && r.summary.agentSpeakingTime == s.metrics.agentSpeakingTime
              && r.summary.turnCount == s.metrics.turnCount
              && r.summary.averageTurnLength == s.metrics.averageTurnLength
              && r.summary.longestPause == s.metrics.longestPause
              && r.summary.interruptions == s.metrics.interruptions
    ensures r.summary.Report? && connected ==>
              r.sent == [LogMessage(SummaryRequested, now), LogMessage(SummaryText(r.summary), now)]
  {
    var m := s.metrics;
    match m.conversationStartTime
    case None => SummaryResult(NoData, [])
    case Some(start) =>
      var ms := SplitDuration(now - start);
      var report := Report(ms.0, ms.1, m.totalSpeakingTime, m.userSpeakingTime, m.agentSpeakingTime,
                           m.turnCount, m.averageTurnLength, m.longestPause, m.interruptions);
      var sent := if connected then [LogMessage(SummaryRequested, now), LogMessage(SummaryText(report), now)] else [];
      SummaryResult(report, sent)
  }

  /** The sentinel the summary returns before the conversation starts. */
  function SummaryString(summary: Summary): (r: Option<string>)
    ensures r.Some? <==> summary.NoData?
    ensures summary.NoData? ==> r == Some(NoDataText)
  {
    if summary.NoData? then Some(NoDataText) else None
  }

  /** The summary and the snapshot taken at the same time agree: "N/A"
      exactly when there is no data, and otherwise the same minutes and
      seconds. */
  lemma SummaryAgreesWithSnapshot(s: Assistant, now: Time)
    ensures var summary := GetAnalyticsSummary(s, now, false).summary;
            var duration := SnapshotOf(s.metrics, now).data.conversationDuration;
            && (summary.NoData? <==> duration.NotAvailable?)
            && (summary.Report? ==> summary.minutes == duration.minutes && summary.seconds == duration.seconds)
  {
  }

  /** Whether the client is connected decides only what is sent, never the
      summary; the sentinel is returned exactly when no start was recorded. */
  lemma SummaryIgnoresConnection(s: Assistant, now: Time)
    ensures GetAnalyticsSummary(s, now, true).summary == GetAnalyticsSummary(s, now, false).summary
    ensures SummaryString(GetAnalyticsSummary(s, now, true).summary) == Some(NoDataText)
        <==> s.metrics.conversationStartTime.None?
  {
  }
}

=== FILE: messages.dfy ===
/**
 Shared message and event types of the conversation-analytics pipeline:
 the activity events the voice pipeline raises, the log lines and metric
 snapshots the analytics assistant publishes, and the spoken summary.
 */
module Messages {

  /** An optional value, standing for Python's `Optional[...]` / `None`. */
  datatype Option<+T> = None | Some(value: T)

  /** A wall-clock reading, in seconds. Differences of two readings are
      what `timedelta.total_seconds()` returns. */
  type Time = real

  /** One activity event, keyed by the tag the assistant dispatches on.
      `Pause` carries the `duration` keyword argument (0 when absent);
      `Unrecognised` is any tag none of the branches matches. */
  datatype Event =
    | ConversationStart
    | UserSpeechStart
    | UserSpeechEnd
    | AgentSpeechStart
    | AgentSpeechEnd
    | Interruption
    | Pause(duration: real)
    | Unrecognised(tag: string)

  /** The text lines sent to the dashboard as `log_message`. Lines that
      interpolate a number keep the number, not its `.1f` rendering. */
  datatype LogLine =
    | ConversationStarted
    | UserStartedSpeaking
    | UserFinishedSpeaking(turnDuration: real)
    | AgentStartedSpeaking
    | AgentFinishedSpeaking(duration: real)
    | InterruptionDetected
    | NewLongestPause(pause: real)
    | SummaryRequested
    | SummaryText(report: Summary)

  /** The `conversation_duration` field of a snapshot: "N/A" or "{m}m {s}s". */
  datatype DurationText = NotAvailable | MinutesSeconds(minutes: int, seconds: int)

  /** The `data` object of a `metrics_update` payload. */
  datatype SnapshotData = SnapshotData(
    conversationDuration: DurationText,
    totalSpeakingTime: real,
    userSpeakingTime: real,
    agentSpeakingTime: real,
    turnCount: nat,
    averageTurnLength: real,
    longestPause: real,
    interruptions: nat)

  /** A `metrics_update` payload: `{type, timestamp, data}`. */
  datatype Snapshot = Snapshot(messageType: string, timestamp: Time, data: SnapshotData)

  /** The spoken analytics summary: the "no data" sentinel, or the values
      the fixed-template paragraph interpolates. */
  datatype Summary =
    | NoData
    | Report(
        minutes: int,
        seconds: int,
        totalSpeakingTime: real,
        userSpeakingTime: real,
        agentSpeakingTime: real,
        turnCount: nat,
        averageTurnLength: real,
        longestPause: real,
        interruptions: nat)

  /** What the assistant emits over its Socket.IO client. */
  datatype Outgoing =
    | LogMessage(message: LogLine, timestamp: Time)
    | MetricsUpdate(snapshot: Snapshot)
}

=== FILE: metrics.dfy ===
/**
 The conversation-metrics reducer of the analytics assistant: the
 `ConversationMetrics` record, the assistant's hidden turn timer, and one
 pure step `Apply(state, event, now)` with the wall clock passed in.
 */
module Metrics {
  import opened Messages

  /** The aggregate metrics of one conversation. */
  datatype ConversationMetrics = ConversationMetrics(
    totalSpeakingTime: real,
    userSpeakingTime: real,
    agentSpeakingTime: real,
    turnCount: nat,
    averageTurnLength: real,
    longestPause: real,
    interruptions: nat,
    conversationStartTime: Option<Time>,
    lastUserSpeech: Option<Time>,
    lastAgentSpeech: Option<Time>)

  /** The dataclass defaults. */
  const Zero := ConversationMetrics(0.0, 0.0, 0.0, 0, 0.0, 0.0, 0, None, None, None)

  /** The assistant's state: its metrics plus the two attributes it keeps
      beside them. Neither timer is ever cleared once set. */
  datatype Assistant = Assistant(
    metrics: ConversationMetrics,
    conversationStartTime: Option<Time>,
    currentTurnStart: Option<Time>)

  /** A freshly constructed assistant. */
  const Fresh := Assistant(Zero, None, None)

  /** The state after one event and the log line sent for it, if any. */
  datatype Transition = Transition(next: Assistant, log: Option<LogLine>)

  const ConversationStartTag := "conversation_start"
  const UserSpeechStartTag := "user_speech_start"
  const UserSpeechEndTag := "user_speech_end"
  const AgentSpeechStartTag := "agent_speech_start"
  const AgentSpeechEndTag := "agent_speech_end"
  const InterruptionTag := "interruption"
  const PauseTag := "pause"

  const KnownTags: set<string> := {
    ConversationStartTag, UserSpeechStartTag, UserSpeechEndTag,
    AgentSpeechStartTag, AgentSpeechEndTag, InterruptionTag, PauseTag
  }

  /** The tag string an event is dispatched on. */
  function Tag(e: Event): string {
    match e
    case ConversationStart => ConversationStartTag
    case UserSpeechStart => UserSpeechStartTag
    case UserSpeechEnd => UserSpeechEndTag
    case AgentSpeechStart => AgentSpeechStartTag
    case AgentSpeechEnd => AgentSpeechEndTag
    case Interruption => InterruptionTag
    case Pause(_) => PauseTag
    case Unrecognised(t) => t
  }

  /** The `if/elif` chain on `event_type`; `duration` is the optional
      keyword argument, read (default 0) only by the pause branch. */
  function Classify(tag: string, duration: Option<real>): (e: Event)
    ensures Tag(e) == tag
    ensures e.Unrecognised? <==> tag !in KnownTags
    ensures e.Pause? ==> e.duration == (if duration.Some? then duration.value else 0.0)
  {
    if tag == ConversationStartTag then ConversationStart
    else if tag == UserSpeechStartTag then UserSpeechStart
    else if tag == UserSpeechEndTag then UserSpeechEnd
    else if tag == AgentSpeechStartTag then AgentSpeechStart
    else if tag == AgentSpeechEndTag then AgentSpeechEnd
    else if tag == InterruptionTag then Interruption
    else if tag == PauseTag then Pause(if duration.Some? then duration.value else 0.0)
    else Unrecognised(tag)
  }

  /** An event the dispatcher can actually produce: an unrecognised tag
      is none of the known ones. */
  predicate Dispatchable(e: Event) {
    e.Unrecognised? ==> e.tag !in KnownTags
  }

  /** Tag and classification are inverse: every dispatchable event is
      recovered from its tag (and, for a pause, its duration). */
  lemma ClassifyRecoversEvent(e: Event)
    requires Dispatchable(e)
    ensures Classify(Tag(e), if e.Pause? then Some(e.duration) else None) == e
  {
    match e
    case Unrecognised(t) =>
    case _ =>
  }

  /** One event at time `now`. User-turn and agent-speech ends are no-ops
      when no matching start was ever seen; a pause only raises the maximum. */
  function Apply(s: Assistant, e: Event, now: Time): (t: Transition)
    // speaking time is split into a user part and an agent part
    ensures t.next.metrics.totalSpeakingTime - s.metrics.totalSpeakingTime
         == (t.next.metrics.userSpeakingTime - s.metrics.userSpeakingTime)
          + (t.next.metrics.agentSpeakingTime - s.metrics.agentSpeakingTime)
    // counters only go up, each by one on its own event
    ensures t.next.metrics.turnCount
         == s.metrics.turnCount + (if e.UserSpeechEnd? && s.currentTurnStart.Some? then 1 else 0)
    ensures t.next.metrics.interruptions
         == s.metrics.interruptions + (if e.Interruption? then 1 else 0)
    // the longest pause is a running maximum, logged exactly when it grows
    ensures t.next.metrics.longestPause >= s.metrics.longestPause
    ensures e.Pause? ==> t.next.metrics.longestPause >= e.duration
    ensures t.next.metrics.longestPause > s.metrics.longestPause
        <==> t.log.Some? && t.log.value.NewLongestPause?
    // every change of state is announced by a log line
    ensures t.log.None? ==> t.next == s
  {
    var m := s.metrics;
    match e
    case ConversationStart =>
      Transition(
        s.(metrics := m.(conversationStartTime := Some(now)), conversationStartTime := Some(now)),
        Some(ConversationStarted))
    case UserSpeechStart =>
      Transition(
        s.(metrics := m.(lastUserSpeech := Some(now)), currentTurnStart := Some(now)),
        Some(UserStartedSpeaking))
    case UserSpeechEnd =>
      if s.currentTurnStart.Some? then
        var duration := now - s.currentTurnStart.value;
        var counted := m.(
          userSpeakingTime := m.userSpeakingTime + duration,
          totalSpeakingTime := m.totalSpeakingTime + duration,
          turnCount := m.turnCount + 1);
        var averaged :=
          if counted.turnCount > 0
          then counted.(averageTurnLength := counted.userSpeakingTime / counted.turnCount as real)
          else counted;
        Transition(s.(metrics := averaged), Some(UserFinishedSpeaking(duration)))
      else
        Transition(s, None)
    case AgentSpeechStart =>
      Transition(s.(metrics := m.(lastAgentSpeech := Some(now))), Some(AgentStartedSpeaking))
    case AgentSpeechEnd =>
      if m.lastAgentSpeech.Some? then
        var duration := now - m.lastAgentSpeech.value;
        Transition(
          s.(metrics := m.(
            agentSpeakingTime := m.agentSpeakingTime + duration,
            totalSpeakingTime := m.totalSpeakingTime + duration)),
          Some(AgentFinishedSpeaking(duration)))
      else
        Transition(s, None)
    case Interruption =>
      Transition(s.(metrics := m.(interruptions := m.interruptions + 1)), Some(InterruptionDetected))
    case Pause(d) =>
      if d > m.longestPause then
        Transition(s.(metrics := m.(longestPause := d)), Some(NewLongestPause(d)))
      else
        Transition(s, None)
    case Unrecognised(_) =>
      Transition(s, None)
  }
}

=== FILE: metrics_properties.dfy ===
/**
 Properties of the metrics reducer: the effect of each event, the state
 invariant every event preserves under a non-decreasing clock, and what a
 whole run of timed events computes.
 */
module MetricsProperties {
  import opened Messages
  import opened Metrics

  // ---------------------------------------------------------------------
  // One event at a time
  // ---------------------------------------------------------------------

  /** A conversation start records the clock both in the metrics and in
      the assistant's own copy, and changes nothing else. */
  lemma ConversationStartEffect(s: Assistant, now: Time)
    ensures Apply(s, ConversationStart, now)
         == Transition(s.(metrics := s.metrics.(conversationStartTime := Some(now)),
                          conversationStartTime := Some(now)),
                       Some(ConversationStarted))
  {
  }

  /** A user-speech start opens the turn timer at the clock and records it
      as the last user speech; no duration or counter changes. */
  lemma UserSpeechStartEffect(s: Assistant, now: Time)
    ensures Apply(s, UserSpeechStart, now)
         == Transition(s.(metrics := s.metrics.(lastUserSpeech := Some(now)),
                          currentTurnStart := Some(now)),
                       Some(UserStartedSpeaking))
  {
  }

  /** An agent-speech start records the clock as the last agent speech and
      changes nothing else. */
  lemma AgentSpeechStartEffect(s: Assistant, now: Time)
    ensures Apply(s, AgentSpeechStart, now)
         == Transition(s.(metrics := s.metrics.(lastAgentSpeech := Some(now))),
                       Some(AgentStartedSpeaking))
  {
  }

  /** An agent utterance from `start` to `end` adds exactly its length to
      the agent and total speaking time, whatever came before it. */
  lemma AgentUtterance(s: Assistant, start: Time, end: Time)
    ensures var m := s.metrics;
            var m' := Apply(Apply(s, AgentSpeechStart, start).next, AgentSpeechEnd, end).next.metrics;
            && m'.agentSpeakingTime == m.agentSpeakingTime + (end - start)
            && m'.totalSpeakingTime == m.totalSpeakingTime + (end - start)
            && m'.userSpeakingTime == m.userSpeakingTime
            && m'.turnCount == m.turnCount
  {
  }

  /** A user turn that was opened is closed by adding its length to the
      user and total speaking time, counting one more turn and recomputing
      the average. The turn timer is left as it was. */
  lemma UserSpeechEndEffect(s: Assistant, now: Time)
    requires s.currentTurnStart.Some?
    ensures var m := s.metrics;
            var m' := Apply(s, UserSpeechEnd, now).next.metrics;
            var d := now - s.currentTurnStart.value;
            && m'.userSpeakingTime == m.userSpeakingTime + d
            && m'.totalSpeakingTime == m.totalSpeakingTime + d
            && m'.agentSpeakingTime == m.agentSpeakingTime
            && m'.turnCount == m.turnCount + 1
            && m'.averageTurnLength == m'.userSpeakingTime / m'.turnCount as real
    ensures Apply(s, UserSpeechEnd, now).next.currentTurnStart == s.currentTurnStart
    // nothing but the four turn fields changes, and the turn's length is logged
    ensures var m := s.metrics;
            var d := now - s.currentTurnStart.value;
            Apply(s, UserSpeechEnd, now)
            == Transition(s.(metrics := m.(userSpeakingTime := m.userSpeakingTime + d,
                                           totalSpeakingTime := m.totalSpeakingTime + d,
                                           turnCount := m.turnCount + 1,
                                           averageTurnLength := (m.userSpeakingTime + d) / (m.turnCount + 1) as real)),
                          Some(UserFinishedSpeaking(d)))
  {
  }

  /** A user-speech end with no turn timer ever opened changes nothing. */
  lemma UserSpeechEndWithoutStart(s: Assistant, now: Time)
    requires s.currentTurnStart.None?
    ensures Apply(s, UserSpeechEnd, now) == Transition(s, None)
  {
  }

  /** Because the turn timer is never cleared, a second user-speech end
      measures again from the same start. */
  lemma RepeatedUserSpeechEnd(s: Assistant, first: Time, second: Time)
    requires s.currentTurnStart.Some?
    ensures var start := s.currentTurnStart.value;
            var m' := Apply(Apply(s, UserSpeechEnd, first).next, UserSpeechEnd, second).next.metrics;
            && m'.userSpeakingTime == s.metrics.userSpeakingTime + (first - start) + (second - start)
            && m'.turnCount == s.metrics.turnCount + 2
  {
  }

  /** An agent-speech end adds the time since the last agent-speech start
      to the agent and total speaking time; with no start it is a no-op. */
  lemma AgentSpeechEndEffect(s: Assistant, now: Time)
    ensures var m := s.metrics;
            var t := Apply(s, AgentSpeechEnd, now);
            if m.lastAgentSpeech.Some? then
              var d := now - m.lastAgentSpeech.value;
              && t.next.metrics == m.(agentSpeakingTime := m.agentSpeakingTime + d,
                                      totalSpeakingTime := m.totalSpeakingTime + d)
              && t.next.currentTurnStart == s.currentTurnStart
              && t.next.conversationStartTime == s.conversationStartTime
              && t.log == Some(AgentFinishedSpeaking(d))
            else
              t == Transition(s, None)
  {
  }

  /** An interruption counts one more interruption and nothing else. */
  lemma InterruptionEffect(s: Assistant, now: Time)
    ensures Apply(s, Interruption, now).next
         == s.(metrics := s.metrics.(interruptions := s.metrics.interruptions + 1))
    ensures Apply(s, Interruption, now).log == Some(InterruptionDetected)
  {
  }

  /** A pause makes the longest pause the larger of the two; a log line is
      sent exactly when the maximum strictly grows. */
  lemma PauseEffect(s: Assistant, d: real, now: Time)
    ensures var t := Apply(s, Pause(d), now);
            && t.next.metrics.longestPause == (if d > s.metrics.longestPause then d else s.metrics.longestPause)
            && t.next.metrics == s.metrics.(longestPause := t.next.metrics.longestPause)
            && (t.log.Some? <==> d > s.metrics.longestPause)
  {
  }

  /** Only a conversation start moves the start time, and only an
      agent-speech start moves the last agent speech: neither is ever
      cleared or reset by another event. */
  lemma StartTimesFramed(s: Assistant, e: Event, now: Time)
    ensures !e.ConversationStart? ==>
              && Apply(s, e, now).next.metrics.conversationStartTime == s.metrics.conversationStartTime
              && Apply(s, e, now).next.conversationStartTime == s.conversationStartTime
    ensures !e.AgentSpeechStart? ==>
              Apply(s, e, now).next.metrics.lastAgentSpeech == s.metrics.lastAgentSpeech
  {
  }

  /** An unrecognised tag changes no state and sends no log line. */
  lemma UnrecognisedIsNoOp(s: Assistant, tag: string, now: Time)
    ensures Apply(s, Unrecognised(tag), now) == Transition(s, None)
  {
  }

  // ---------------------------------------------------------------------
  // The state invariant
  // ---------------------------------------------------------------------

  predicate NotAfter(t: Option<Time>, clock: Time) {
    t.Some? ==> t.value <= clock
  }

  /** What holds of every state reachable with a clock that has reached
      `clock`: total speaking time is the sum of its two parts, durations
      are non-negative, the average is user time over turns (0 before the
      first turn), the duplicated start time agrees with the metrics, the
      turn timer is the last user-speech time, and no recorded time lies
      in the future. */
  predicate Valid(s: Assistant, clock: Time) {
    var m := s.metrics;
    && m.totalSpeakingTime == m.userSpeakingTime + m.agentSpeakingTime
    && m.userSpeakingTime >= 0.0
    && m.agentSpeakingTime >= 0.0
    && m.longestPause >= 0.0
    && (m.turnCount == 0 ==> m.userSpeakingTime == 0.0 && m.averageTurnLength == 0.0)
    && (m.turnCount > 0 ==> m.averageTurnLength == m.userSpeakingTime / m.turnCount as real)
    && (m.turnCount > 0 ==> s.currentTurnStart.Some?)
    && s.conversationStartTime == m.conversationStartTime
    && s.currentTurnStart == m.lastUserSpeech
    && NotAfter(m.conversationStartTime, clock)
    && NotAfter(m.lastUserSpeech, clock)
    && NotAfter(m.lastAgentSpeech, clock)
  }

  /** A fresh assistant satisfies the invariant at any time. */
  lemma FreshIsValid(clock: Time)
    ensures Valid(Fresh, clock)
  {
  }

  /** Every event preserves the invariant when the clock does not go back. */
  lemma ApplyPreservesValid(s: Assistant, clock: Time, e: Event, now: Time)
    requires Valid(s, clock)
    requires clock <= now
    ensures Valid(Apply(s, e, now).next, now)
    ensures Apply(s, e, now).next.metrics.userSpeakingTime >= s.metrics.userSpeakingTime
    ensures Apply(s, e, now).next.metrics.agentSpeakingTime >= s.metrics.agentSpeakingTime
  {
  }

  /** The average turn length never exceeds the user speaking time. */
  lemma AverageBounded(s: Assistant, clock: Time)
    requires Valid(s, clock)
    ensures 0.0 <= s.metrics.averageTurnLength <= s.metrics.userSpeakingTime
  {
    var m := s.metrics;
    if m.turnCount > 0 {
      var n := m.turnCount as real;
      var a := m.averageTurnLength;
      var k := n - 1.0;
      assert k >= 0.0;
      assert a * n == m.userSpeakingTime;
      assert a >= 0.0;
      assert a * k >= 0.0 by {
        if a > 0.0 && k > 0.0 {
          assert a * k > 0.0;
        }
      }
      assert a * n == a * k + a;
    }
  }

  // ---------------------------------------------------------------------
  // Runs of timed events
  // ---------------------------------------------------------------------

  /** An event together with the clock reading at which it is handled. */
  datatype Timed = Timed(event: Event, at: Time)

  /** The state after handling `evs` in order, starting from `s`. */
  function Run(s: Assistant, evs: seq<Timed>): Assistant
    decreases |evs|
  {
    if |evs| == 0 then s
    else Apply(Run(s, evs[..|evs| - 1]), evs[|evs| - 1].event, evs[|evs| - 1].at).next
  }

  /** No event of `evs` is a conversation start. */
  predicate NoRestart(evs: seq<Timed>) {
    forall i :: 0 <= i < |evs| ==> !evs[i].event.ConversationStart?
  }

  /** A run without a conversation start keeps the recorded start time. */
  lemma {:induction false} StartKeptWithoutRestart(s: Assistant, evs: seq<Timed>)
    requires NoRestart(evs)
    ensures Run(s, evs).metrics.conversationStartTime == s.metrics.conversationStartTime
    ensures Run(s, evs).conversationStartTime == s.conversationStartTime
    decreases |evs|
  {
    if |evs| > 0 {
      var n := |evs| - 1;
      assert NoRestart(evs[..n]);
      StartKeptWithoutRestart(s, evs[..n]);
      StartTimesFramed(Run(s, evs[..n]), evs[n].event, evs[n].at);
    }
  }

  /** Clock readings never go back, and none precedes `from`. */
  predicate Chronological(evs: seq<Timed>, from: Time) {
    && (forall i :: 0 <= i < |evs| ==> from <= evs[i].at)
    && (forall i, j :: 0 <= i < j < |evs| ==> evs[i].at <= evs[j].at)
  }

  function ClockAfter(evs: seq<Timed>, from: Time): Time {
    if |evs| == 0 then from else evs[|evs| - 1].at
  }

  /** Running two stretches of events one after the other is running
      their concatenation. */
  lemma {:induction false} RunAppend(s: Assistant, a: seq<Timed>, b: seq<Timed>)
    ensures Run(Run(s, a), b) == Run(s, a + b)
    decreases |b|
  {
    if |b| > 0 {
      assert (a + b)[..|a + b| - 1] == a + b[..|b| - 1];
      assert (a + b)[|a + b| - 1] == b[|b| - 1];
      RunAppend(s, a, b[..|b| - 1]);
    } else {
      assert a + b == a;
    }
  }

  /** The invariant holds after any chronological run. */
  lemma {:induction false} RunPreservesValid(s: Assistant, clock: Time, evs: seq<Timed>)
    requires Valid(s, clock)
    requires Chronological(evs, clock)
    ensures Valid(Run(s, evs), ClockAfter(evs, clock))
    decreases |evs|
  {
    if |evs| > 0 {
      var prefix := evs[..|evs| - 1];
      assert Chronological(prefix, clock);
      RunPreservesValid(s, clock, prefix);
      ApplyPreservesValid(Run(s, prefix), ClockAfter(prefix, clock), evs[|evs| - 1].event, evs[|evs| - 1].at);
    }
  }

  /** The number of interruption events in a run. */
  function InterruptionsIn(evs: seq<Timed>): nat
    decreases |evs|
  {
    if |evs| == 0 then 0
    else InterruptionsIn(evs[..|evs| - 1]) + (if evs[|evs| - 1].event.Interruption? then 1 else 0)
  }

  /** The interruption counter counts interruption events. */
  lemma {:induction false} InterruptionsCounted(s: Assistant, evs: seq<Timed>)
    ensures Run(s, evs).metrics.interruptions == s.metrics.interruptions + InterruptionsIn(evs)
    decreases |evs|
  {
    if |evs| > 0 {
      InterruptionsCounted(s, evs[..|evs| - 1]);
    }
  }

  /** From a fresh assistant, the longest pause is the largest pause
      duration seen, or 0 when none was positive. */
  lemma {:induction false} LongestPauseIsMaximum(evs: seq<Timed>)
    ensures var lp := Run(Fresh, evs).metrics.longestPause;
            && lp >= 0.0
            && (forall i :: 0 <= i < |evs| && evs[i].event.Pause? ==> evs[i].event.duration <= lp)
            && (lp == 0.0 || exists i :: 0 <= i < |evs| && evs[i].event.Pause? && evs[i].event.duration == lp)
    decreases |evs|
  {
    if |evs| > 0 {
      var prefix := evs[..|evs| - 1];
      LongestPauseIsMaximum(prefix);
      var lp0 := Run(Fresh, prefix).metrics.longestPause;
      var lp := Run(Fresh, evs).metrics.longestPause;
      assert forall i :: 0 <= i < |prefix| ==> prefix[i] == evs[i];
      if lp != lp0 {
        assert evs[|evs| - 1].event.Pause? && evs[|evs| - 1].event.duration == lp;
      }
    }
  }

  /** The time of the most recent user-speech start, if any. */
  function LastUserStart(evs: seq<Timed>): Option<Time>
    decreases |evs|
  {
    if |evs| == 0 then None
    else if evs[|evs| - 1].event.UserSpeechStart? then Some(evs[|evs| - 1].at)
    else LastUserStart(evs[..|evs| - 1])
  }

  /** The user channel read off the event list: each user-speech end that
      follows some user-speech start is a completed turn, lasting from the
      most recent start to the end. */
  function CompletedTurns(evs: seq<Timed>): nat
    decreases |evs|
  {
    if |evs| == 0 then 0
    else
      var prefix := evs[..|evs| - 1];
      CompletedTurns(prefix)
        + (if evs[|evs| - 1].event.UserSpeechEnd? && LastUserStart(prefix).Some? then 1 else 0)
  }

  function UserTurnTime(evs: seq<Timed>): real
    decreases |evs|
  {
    if |evs| == 0 then 0.0
    else
      var prefix := evs[..|evs| - 1];
      var start := LastUserStart(prefix);
      UserTurnTime(prefix)
        + (if evs[|evs| - 1].event.UserSpeechEnd? && start.Some? then evs[|evs| - 1].at - start.value else 0.0)
  }

  /** From a fresh assistant, the turn timer is the most recent user-speech
      start, and the turn count and user speaking time are those of the
      completed turns. */
  lemma {:induction false} UserChannel(evs: seq<Timed>)
    ensures Run(Fresh, evs).currentTurnStart == LastUserStart(evs)
    ensures Run(Fresh, evs).metrics.turnCount == CompletedTurns(evs)
    ensures Run(Fresh, evs).metrics.userSpeakingTime == UserTurnTime(evs)
    decreases |evs|
  {
    if |evs| > 0 {
      UserChannel(evs[..|evs| - 1]);
    }
  }

  /** A run from a fresh assistant, under any interleaving, keeps total
      speaking time equal to the user plus the agent part, and the average
      equal to user time over turns once a turn has completed. */
  lemma SpeakingTimeSplit(evs: seq<Timed>, clock: Time)
    requires Chronological(evs, clock)
    ensures var m := Run(Fresh, evs).metrics;
            && m.totalSpeakingTime == m.userSpeakingTime + m.agentSpeakingTime
            && (m.turnCount > 0 ==> m.averageTurnLength == m.userSpeakingTime / m.turnCount as real)
            && (m.turnCount == 0 ==> m.averageTurnLength == 0.0)
  {
    FreshIsValid(clock);
    RunPreservesValid(Fresh, clock, evs);
  }

  // ---------------------------------------------------------------------
  // Paired user turns
  // ---------------------------------------------------------------------

  /** A user turn as its start and end times. */
  datatype Turn = Turn(start: Time, end: Time)

  /** Each turn as a user-speech start followed by a user-speech end. */
  function TurnEvents(turns: seq<Turn>): seq<Timed>
    decreases |turns|
  {
    if |turns| == 0 then []
    else
      var last := turns[|turns| - 1];
      TurnEvents(turns[..|turns| - 1]) + [Timed(UserSpeechStart, last.start), Timed(UserSpeechEnd, last.end)]
  }

  function TotalLength(turns: seq<Turn>): real
    decreases |turns|
  {
    if |turns| == 0 then 0.0
    else TotalLength(turns[..|turns| - 1]) + (turns[|turns| - 1].end - turns[|turns| - 1].start)
  }

  /** One start/end pair: the turn's length is added to user and total
      time and one turn is counted. */
  lemma OnePairedTurn(s: Assistant, t: Turn)
    ensures var m := s.metrics;
            var m' := Run(s, [Timed(UserSpeechStart, t.start), Timed(UserSpeechEnd, t.end)]).metrics;
            && m'.userSpeakingTime == m.userSpeakingTime + (t.end - t.start)
            && m'.totalSpeakingTime == m.totalSpeakingTime + (t.end - t.start)
            && m'.agentSpeakingTime == m.agentSpeakingTime
            && m'.turnCount == m.turnCount + 1
            && m'.averageTurnLength == m'.userSpeakingTime / m'.turnCount as real
  {
    var pair := [Timed(UserSpeechStart, t.start), Timed(UserSpeechEnd, t.end)];
    assert pair[..1] == [pair[0]];
    assert [pair[0]][..0] == [];
    var afterStart := Apply(s, UserSpeechStart, t.start).next;
    assert Run(s, pair[..1]) == afterStart;
    UserSpeechEndEffect(afterStart, t.end);
  }

  /** n paired turns of lengths d1..dn add the sum of the lengths to the
      user and total speaking time and n to the turn count, leave agent
      time alone, and leave the average at user time over turns. */
  lemma {:induction false} PairedTurns(s: Assistant, turns: seq<Turn>)
    ensures var m := s.metrics;
            var m' := Run(s, TurnEvents(turns)).metrics;
            && m'.userSpeakingTime == m.userSpeakingTime + TotalLength(turns)
            && m'.totalSpeakingTime == m.totalSpeakingTime + TotalLength(turns)
            && m'.agentSpeakingTime == m.agentSpeakingTime
            && m'.turnCount == m.turnCount + |turns|
            && (|turns| > 0 ==> m'.averageTurnLength == m'.userSpeakingTime / m'.turnCount as real)
    decreases |turns|
  {
    if |turns| > 0 {
      var prefix := turns[..|turns| - 1];
      var last := turns[|turns| - 1];
      var pair := [Timed(UserSpeechStart, last.start), Timed(UserSpeechEnd, last.end)];
      PairedTurns(s, prefix);
      RunAppend(s, TurnEvents(prefix), pair);
      OnePairedTurn(Run(s, TurnEvents(prefix)), last);
    }
  }

  /** From a fresh assistant: user time is the sum, the turn count is n and
      the average is the sum over n. */
  lemma PairedTurnsFromFresh(turns: seq<Turn>)
    requires |turns| > 0
    ensures var m := Run(Fresh, TurnEvents(turns)).metrics;
            && m.userSpeakingTime == TotalLength(turns)
            && m.turnCount == |turns|
            && m.averageTurnLength == TotalLength(turns) / |turns| as real
  {
    PairedTurns(Fresh, turns);
  }

  // ---------------------------------------------------------------------
  // Worked scenarios
  // ---------------------------------------------------------------------

  /** Start, a user turn from 0 to 3, an agent turn from 3 to 5. */
  lemma ScenarioOneExchange()
    ensures var m := Run(Fresh, [
              Timed(ConversationStart, 0.0), Timed(UserSpeechStart, 0.0), Timed(UserSpeechEnd, 3.0),
              Timed(AgentSpeechStart, 3.0), Timed(AgentSpeechEnd, 5.0)]).metrics;
            && m.userSpeakingTime == 3.0
            && m.agentSpeakingTime == 2.0
            && m.totalSpeakingTime == 5.0
            && m.turnCount == 1
            && m.averageTurnLength == 3.0
            && m.longestPause == 0.0
            && m.interruptions == 0
  {
    var evs := [
      Timed(ConversationStart, 0.0), Timed(UserSpeechStart, 0.0), Timed(UserSpeechEnd, 3.0),
      Timed(AgentSpeechStart, 3.0), Timed(AgentSpeechEnd, 5.0)];
    var s1 := Apply(Fresh, ConversationStart, 0.0).next;
    var s2 := Apply(s1, UserSpeechStart, 0.0).next;
    var s3 := Apply(s2, UserSpeechEnd, 3.0).next;
    var s4 := Apply(s3, AgentSpeechStart, 3.0).next;
    var s5 := Apply(s4, AgentSpeechEnd, 5.0).next;
    assert evs[..1][..0] == [];
    assert Run(Fresh, evs[..1]) == s1;
    assert evs[..2][..1] == evs[..1];
    assert Run(Fresh, evs[..2]) == s2;
    assert evs[..3][..2] == evs[..2];
    assert Run(Fresh, evs[..3]) == s3;
    assert evs[..4][..3] == evs[..3];
    assert Run(Fresh, evs[..4]) == s4;
    assert evs[..4] == evs[..|evs| - 1];
    assert Run(Fresh, evs) == s5;
    assert s3.metrics.userSpeakingTime == 3.0 && s3.metrics.turnCount == 1;
  }

  /** Pauses of 2.0 s and then 0.5 s leave the longest pause at 2.0 s. */
  lemma ScenarioTwoPauses()
    ensures Run(Fresh, [Timed(Pause(2.0), 1.0), Timed(Pause(0.5), 2.0)]).metrics.longestPause == 2.0
  {
    var evs := [Timed(Pause(2.0), 1.0), Timed(Pause(0.5), 2.0)];
    assert evs[..1][..0] == [];
  }
}

=== FILE: pipeline.dfy ===
/**
 The assistant and the relay together: what the assistant emits for an
 event arrives, unchanged, at every other registered dashboard.
 */
module Pipeline {
  import opened Messages
  import Metrics
  import Dashboard
  import Relay

  /** How the assistant's Socket.IO client raises each outgoing message. */
  function AsIncoming(o: Outgoing): (msg: Relay.Incoming<Outgoing>)
    ensures msg.MetricsUpdate? || msg.LogMessage?
    ensures msg.data == o
    ensures msg.LogMessage? <==> o.LogMessage?
    ensures msg.MetricsUpdate? <==> o.MetricsUpdate?
  {
    match o
    case LogMessage(_, _) => Relay.LogMessage(o)
    case MetricsUpdate(_) => Relay.MetricsUpdate(o)
  }

  function EventName(o: Outgoing): string {
    if o.MetricsUpdate? then Relay.MetricsUpdateEvent else Relay.LogMessageEvent
  }

  /** Every message the assistant emits for one event reaches every
      dashboard other than the assistant's own session, unchanged and under
      its own event name, and never returns to the assistant. */
  lemma EmissionsReachDashboards(
    s: Metrics.Assistant, tag: string, duration: Option<real>, now: Time,
    clients: set<Relay.Sid>, agent: Relay.Sid, dashboard: Relay.Sid)
    requires dashboard in clients && dashboard != agent
    ensures forall o :: o in Dashboard.UpdateMetrics(s, tag, duration, now, true).sent ==>
              && Relay.Delivery(dashboard, EventName(o), Relay.Forwarded(o))
                   in Relay.Handle(clients, agent, AsIncoming(o), now).sent
              && agent !in Relay.Recipients(Relay.Handle(clients, agent, AsIncoming(o), now).sent)
  {
    forall o | o in Dashboard.UpdateMetrics(s, tag, duration, now, true).sent
      ensures Relay.Delivery(dashboard, EventName(o), Relay.Forwarded(o))
                in Relay.Handle(clients, agent, AsIncoming(o), now).sent
    {
      var sent := Relay.Handle(clients, agent, AsIncoming(o), now).sent;
      assert dashboard in Relay.Recipients(sent);
    }
  }
}

=== FILE: relay.dfy ===
/**
 The Socket.IO telemetry relay: a registry of connected session ids and
 one handler per event. Each handler returns the new registry and the set
 of deliveries it makes, one (recipient, event, payload) per socket
 reached. A broadcast reaches the sockets Socket.IO itself knows; this
 model takes that audience to be the registry.
 */
module Relay {

  /** A Socket.IO session id. */
  type Sid = string

  const WelcomeEvent := "welcome"
  const MetricsUpdateEvent := "metrics_update"
  const LogMessageEvent := "log_message"
  const AckEvent := "analytics_request_received"

  const WelcomeText := "Connected to Voice Analytics Dashboard"
  const AckText := "Analytics request received"

  /** What a delivery carries. `Forwarded` is a client's payload, relayed
      unchanged; the other three are the relay's own replies. */
  datatype Payload<D(==)> =
    | Welcome(message: string, timestamp: real, clientCount: nat)
    | Greeting(message: string)
    | Acknowledgement(message: string, timestamp: real)
    | Forwarded(data: D)

  datatype Delivery<D(==)> = Delivery(to: Sid, event: string, payload: Payload<D>)

  /** The events a client can raise; `Other` is an event no handler is
      registered for. */
  datatype Incoming<D(==)> =
    | Connect
    | Disconnect
    | MetricsUpdate(data: D)
    | LogMessage(data: D)
    | RequestAnalytics(data: D)
    | Other(name: string, data: D)

  datatype Outcome<D(==)> = Outcome(clients: set<Sid>, sent: set<Delivery<D>>)

  /** The sockets a set of deliveries reaches. */
  function Recipients<D(==)>(sent: set<Delivery<D>>): set<Sid> {
    set d | d in sent :: d.to
  }

  /** One copy of `data`, as event `event`, for each socket in `rs`. */
  function Copies<D(==)>(rs: set<Sid>, event: string, data: D): (sent: set<Delivery<D>>)
    ensures Recipients(sent) == rs
    ensures forall d :: d in sent ==> d.event == event && d.payload == Forwarded(data)
  {
    var sent := set r | r in rs :: Delivery(r, event, Forwarded(data));
    assert forall r :: r in rs ==> Delivery(r, event, Forwarded(data)) in sent;
    sent
  }

  /** A set of copies has one delivery per recipient. */
  lemma {:induction false} CopiesCardinality<D>(rs: set<Sid>, event: string, data: D)
    ensures |Copies(rs, event, data)| == |rs|
    decreases rs
  {
    if rs != {} {
      var r :| r in rs;
      var rest := rs - {r};
      CopiesCardinality(rest, event, data);
      assert Copies(rs, event, data) == Copies(rest, event, data) + {Delivery(r, event, Forwarded(data))};
      assert Delivery(r, event, Forwarded(data)) !in Copies(rest, event, data);
    }
  }

  /** `emit(event, data, skip_sid=sender)`: a copy to every socket of the
      audience except the sender. */
  function EmitSkipping<D(==)>(audience: set<Sid>, sender: Sid, event: string, data: D): (sent: set<Delivery<D>>)
    ensures Recipients(sent) == audience - {sender}
    ensures sender !in Recipients(sent)
    ensures forall d :: d in sent ==> d.event == event && d.payload == Forwarded(data)
  {
    Copies(audience - {sender}, event, data)
  }

  /** `connect`: the sid joins the registry and alone receives a welcome
      carrying the registry's size after the insertion. */
  function OnConnect<D(==)>(clients: set<Sid>, sid: Sid, now: real): (o: Outcome<D>)
    ensures sid in o.clients && o.clients - {sid} == clients - {sid}
    ensures |o.clients| == (if sid in clients then |clients| else |clients| + 1)
    ensures Recipients(o.sent) == {sid}
    ensures forall d :: d in o.sent ==>
              d.event == WelcomeEvent && d.payload == Welcome(WelcomeText, now, |o.clients|)
  {
    var joined := clients + {sid};
    assert sid !in clients ==> joined == clients + {sid} && |joined| == |clients| + 1;
    assert sid in clients ==> joined == clients;
    var welcome := Delivery(sid, WelcomeEvent, Welcome(WelcomeText, now, |joined|));
    assert Recipients<D>({welcome}) == {sid};
    Outcome(joined, {welcome})
  }

  /** `disconnect`: the sid leaves the registry (`discard`, so an absent
      sid is no error); nothing is sent. */
  function OnDisconnect<D(==)>(clients: set<Sid>, sid: Sid): (o: Outcome<D>)
    ensures sid !in o.clients && o.clients + {sid} == clients + {sid}
    ensures sid !in clients ==> o.clients == clients
    ensures o.sent == {}
  {
    Outcome(clients - {sid}, {})
  }

  /** `metrics_update`: relayed unchanged to every registered socket but the
      sender; the registry is untouched. */
  function OnMetricsUpdate<D(==)>(clients: set<Sid>, sid: Sid, data: D): (o: Outcome<D>)
    ensures o.clients == clients
    ensures Recipients(o.sent) == clients - {sid}
    ensures forall d :: d in o.sent ==> d.event == MetricsUpdateEvent && d.payload == Forwarded(data)
  {
    Outcome(clients, EmitSkipping(clients, sid, MetricsUpdateEvent, data))
  }

  /** `log_message`: relayed unchanged to every registered socket but the
      sender; the registry is untouched. */
  function OnLogMessage<D(==)>(clients: set<Sid>, sid: Sid, data: D): (o: Outcome<D>)
    ensures o.clients == clients
    ensures Recipients(o.sent) == clients - {sid}
    ensures forall d :: d in o.sent ==> d.event == LogMessageEvent && d.payload == Forwarded(data)
  {
    Outcome(clients, EmitSkipping(clients, sid, LogMessageEvent, data))
  }

  /** `request_analytics`: one timestamped acknowledgement to the requester
      only; the request's data is ignored and the registry untouched. */
  function OnRequestAnalytics<D(==)>(clients: set<Sid>, sid: Sid, data: D, now: real): (o: Outcome<D>)
    ensures o.clients == clients
    ensures |o.sent| == 1 && Recipients(o.sent) == {sid}
    ensures forall d :: d in o.sent ==> d.event == AckEvent && d.payload == Acknowledgement(AckText, now)
  {
    Outcome(clients, {Delivery(sid, AckEvent, Acknowledgement(AckText, now))})
  }

  /** The server's dispatch on the event name. An event without a handler
      is dropped. */
  function Handle<D(==)>(clients: set<Sid>, sid: Sid, msg: Incoming<D>, now: real): (o: Outcome<D>)
    ensures !msg.Connect? && !msg.Disconnect? ==> o.clients == clients
    ensures msg.Other? ==> o.sent == {}
    ensures msg.Connect? ==> o.sent == {Delivery(sid, WelcomeEvent, Welcome(WelcomeText, now, |clients + {sid}|))}
    ensures msg.Disconnect? ==> o.sent == {}
    ensures msg.MetricsUpdate? ==> o.sent == EmitSkipping(clients, sid, MetricsUpdateEvent, msg.data)
    ensures msg.LogMessage? ==> o.sent == EmitSkipping(clients, sid, LogMessageEvent, msg.data)
    ensures msg.RequestAnalytics? ==> o.sent == {Delivery(sid, AckEvent, Acknowledgement(AckText, now))}
  {
    match msg
    case Connect => OnConnect(clients, sid, now)
    case Disconnect => OnDisconnect(clients, sid)
    case MetricsUpdate(data) => OnMetricsUpdate(clients, sid, data)
    case LogMessage(data) => OnLogMessage(clients, sid, data)
    case RequestAnalytics(data) => OnRequestAnalytics(clients, sid, data, now)
    case Other(_, _) => Outcome(clients, {})
  }

  /** A relayed message never comes back to its sender, and every other
      registered socket receives it exactly once. */
  lemma NoEcho<D>(clients: set<Sid>, sid: Sid, msg: Incoming<D>, now: real)
    requires msg.MetricsUpdate? || msg.LogMessage?
    ensures sid !in Recipients(Handle(clients, sid, msg, now).sent)
    ensures Recipients(Handle(clients, sid, msg, now).sent) == clients - {sid}
    ensures |Handle(clients, sid, msg, now).sent| == |clients - {sid}|
  {
    CopiesCardinality(clients - {sid}, if msg.MetricsUpdate? then MetricsUpdateEvent else LogMessageEvent, msg.data);
  }

  /** Direct replies reach only the socket that raised the event. */
  lemma DirectRepliesOnlyToSender<D>(clients: set<Sid>, sid: Sid, msg: Incoming<D>, now: real)
    requires msg.Connect? || msg.RequestAnalytics?
    ensures Recipients(Handle(clients, sid, msg, now).sent) == {sid}
  {
  }

  /** Disconnecting twice is disconnecting once. */
  lemma DisconnectIdempotent<D>(clients: set<Sid>, sid: Sid)
    ensures OnDisconnect<D>(OnDisconnect<D>(clients, sid).clients, sid).clients == OnDisconnect<D>(clients, sid).clients
  {
  }

  /** After b disconnects, a broadcast from a reaches the remaining sockets
      but not b, and a newcomer c is told a count that no longer includes b. */
  lemma AfterDisconnect<D>(clients: set<Sid>, a: Sid, b: Sid, c: Sid, data: D, now: real)
    requires c !in clients && c != b
    ensures var left := OnDisconnect<D>(clients, b).clients;
            && Recipients(OnMetricsUpdate(left, a, data).sent) == clients - {a, b}
            && b !in Recipients(OnMetricsUpdate(left, a, data).sent)
            && forall d :: d in OnConnect<D>(left, c, now).sent ==>
                 d.payload.clientCount == |clients - {b}| + 1
  {
  }

  /** Linearises a broadcast: Socket.IO walks the audience and emits one
      packet per socket. The result lists every recipient exactly once and
      holds the same deliveries as `EmitSkipping`. */
  method Fanout<D(==)>(audience: set<Sid>, sender: Sid, event: string, data: D) returns (out: seq<Delivery<D>>)
    ensures |out| == |audience - {sender}|
    ensures forall i, j :: 0 <= i < j < |out| ==> out[i].to != out[j].to
    ensures forall i :: 0 <= i < |out| ==> out[i] in EmitSkipping(audience, sender, event, data)
    ensures forall d :: d in EmitSkipping(audience, sender, event, data) ==> d in out
  {
    var rest := audience - {sender};
    out := [];
    while rest != {}
      invariant rest <= audience - {sender}
      invariant |out| + |rest| == |audience - {sender}|
      invariant forall i :: 0 <= i < |out| ==> out[i].to in audience - {sender} && out[i].to !in rest
      invariant forall i :: 0 <= i < |out| ==> out[i] == Delivery(out[i].to, event, Forwarded(data))
      invariant forall i, j :: 0 <= i < j < |out| ==> out[i].to != out[j].to
      invariant forall r :: r in audience - {sender} && r !in rest ==> Delivery(r, event, Forwarded(data)) in out
      decreases rest
    {
      var r :| r in rest;
      out := out + [Delivery(r, event, Forwarded(data))];
      rest := rest - {r};
    }
  }
}

=== FILE: relay_runs.dfy ===
/**
 The relay over a whole run of arrivals: which sessions are registered
 after any sequence of events, and what a later newcomer or broadcast sees.
 */
module RelayRuns {
  import opened Relay

  /** An event raised by session `sid`, handled at time `at`. */
  datatype Arrival<D(==)> = Arrival(sid: Sid, msg: Incoming<D>, at: real)

  /** The registry after handling `log` in order, starting from `clients`. */
  function Registry<D(==)>(clients: set<Sid>, log: seq<Arrival<D>>): set<Sid>
    decreases |log|
  {
    if |log| == 0 then clients
    else
      var a := log[|log| - 1];
      Handle(Registry(clients, log[..|log| - 1]), a.sid, a.msg, a.at).clients
  }

  /** `x` connected at some point and has not disconnected since. */
  predicate ConnectedAfter<D(==)>(log: seq<Arrival<D>>, x: Sid) {
    exists i: nat :: i < |log| && log[i].sid == x && log[i].msg.Connect? && NoDisconnectAfter(log, x, i)
  }

  predicate NoDisconnectAfter<D(==)>(log: seq<Arrival<D>>, x: Sid, i: nat) {
    forall j :: i < j < |log| ==> !(log[j].sid == x && log[j].msg.Disconnect?)
  }

  /** One event changes the membership of `x` only if `x` raised it. */
  lemma StepMembership<D>(clients: set<Sid>, a: Arrival<D>, x: Sid)
    ensures x in Handle(clients, a.sid, a.msg, a.at).clients
        <==> (a.sid == x && a.msg.Connect?) || (x in clients && !(a.sid == x && a.msg.Disconnect?))
  {
  }

  /** An event that is not a connect or disconnect of `x` leaves whether
      `x` is connected as it was. */
  lemma ConnectedAfterUnrelated<D>(log: seq<Arrival<D>>, x: Sid)
    requires |log| > 0
    requires var a := log[|log| - 1]; !(a.sid == x && (a.msg.Connect? || a.msg.Disconnect?))
    ensures ConnectedAfter(log, x) <==> ConnectedAfter(log[..|log| - 1], x)
  {
    var n := |log| - 1;
    var prefix := log[..n];
    if ConnectedAfter(prefix, x) {
      var i: nat :| i < |prefix| && prefix[i].sid == x && prefix[i].msg.Connect? && NoDisconnectAfter(prefix, x, i);
      assert log[i] == prefix[i];
      assert NoDisconnectAfter(log, x, i);
    }
    if ConnectedAfter(log, x) {
      var i: nat :| i < |log| && log[i].sid == x && log[i].msg.Connect? && NoDisconnectAfter(log, x, i);
      assert i < n;
      assert prefix[i] == log[i];
      assert NoDisconnectAfter(prefix, x, i);
    }
  }

  /** A disconnect of `x` as the last event leaves `x` disconnected. */
  lemma DisconnectedAfterDisconnect<D>(log: seq<Arrival<D>>, x: Sid)
    requires |log| > 0
    requires log[|log| - 1].sid == x && log[|log| - 1].msg.Disconnect?
    ensures !ConnectedAfter(log, x)
  {
  }

  /** Starting from an empty registry (a fresh server), a session is
      registered exactly when its last lifecycle event was a connect. */
  lemma {:induction false} RegistryMembership<D>(log: seq<Arrival<D>>, x: Sid)
    ensures x in Registry({}, log) <==> ConnectedAfter(log, x)
    decreases |log|
  {
    if |log| > 0 {
      var n := |log| - 1;
      var a := log[n];
      RegistryMembership(log[..n], x);
      StepMembership(Registry({}, log[..n]), a, x);
      if a.sid == x && a.msg.Connect? {
        assert NoDisconnectAfter(log, x, n);
      } else if a.sid == x && a.msg.Disconnect? {
        DisconnectedAfterDisconnect(log, x);
      } else {
        ConnectedAfterUnrelated(log, x);
      }
    }
  }

  /** After any run from a fresh server, a newcomer is welcomed with the
      number of sessions still connected, itself included, and a broadcast
      from any session reaches exactly the other connected sessions. */
  lemma CountsAfterRun<D>(log: seq<Arrival<D>>, newcomer: Sid, sender: Sid, data: D, now: real)
    requires !ConnectedAfter(log, newcomer)
    ensures var clients := Registry({}, log);
            && (forall d :: d in OnConnect<D>(clients, newcomer, now).sent ==>
                  d.payload.clientCount == |clients| + 1)
            && (forall x :: x in Recipients(OnMetricsUpdate(clients, sender, data).sent)
                  <==> x != sender && ConnectedAfter(log, x))
  {
    RegistryMembership(log, newcomer);
    forall x
      ensures x in Recipients(OnMetricsUpdate(Registry({}, log), sender, data).sent)
          <==> x != sender && ConnectedAfter(log, x)
    {
      RegistryMembership(log, x);
    }
  }
}

=== FILE: stateless_relay.dfy ===
/**
 The stateless relay variant: it keeps no registry, greets a newcomer
 with a fixed message, relays only `metrics_update`, and has no handler
 for anything else. Its broadcast audience is Socket.IO's own socket list,
 passed in as `sockets`.
 */
module StatelessRelay {
  import Relay

  const GreetingText := "Connected to analytics dashboard"

  /** The deliveries for one event raised by `sid`. */
  function Handle<D(==)>(sockets: set<Relay.Sid>, sid: Relay.Sid, msg: Relay.Incoming<D>): (sent: set<Relay.Delivery<D>>)
    ensures msg.Connect? ==>
              && Relay.Recipients(sent) == {sid}
              && forall d :: d in sent ==> d.event == Relay.WelcomeEvent && d.payload == Relay.Greeting(GreetingText)
    ensures msg.MetricsUpdate? ==>
              && Relay.Recipients(sent) == sockets - {sid}
              && forall d :: d in sent ==> d.event == Relay.MetricsUpdateEvent && d.payload == Relay.Forwarded(msg.data)
    ensures !msg.Connect? && !msg.MetricsUpdate? ==> sent == {}
  {
    match msg
    case Connect => {Relay.Delivery(sid, Relay.WelcomeEvent, Relay.Greeting(GreetingText))}
    case MetricsUpdate(data) => Relay.EmitSkipping(sockets, sid, Relay.MetricsUpdateEvent, data)
    case _ => {}
  }

  /** With the socket list equal to the registry, both relays forward a
      metrics update to exactly the same deliveries. */
  lemma MetricsRelayAgrees<D>(clients: set<Relay.Sid>, sid: Relay.Sid, data: D, now: real)
    ensures Handle(clients, sid, Relay.MetricsUpdate(data))
         == Relay.Handle(clients, sid, Relay.MetricsUpdate(data), now).sent
  {
  }

  /** Only `metrics_update` is relayed: a log message or analytics request
      reaches nobody here, while the registry relay answers or forwards it. */
  lemma OnlyMetricsRelayed<D>(sockets: set<Relay.Sid>, sid: Relay.Sid, data: D, now: real)
    requires sockets - {sid} != {}
    ensures Handle(sockets, sid, Relay.LogMessage(data)) == {}
    ensures Handle(sockets, sid, Relay.RequestAnalytics(data)) == {}
    ensures Relay.Handle(sockets, sid, Relay.LogMessage(data), now).sent != {}
    ensures Relay.Handle(sockets, sid, Relay.RequestAnalytics(data), now).sent != {}
  {
    var r :| r in sockets - {sid};
    assert r in Relay.Recipients(Relay.Handle(sockets, sid, Relay.LogMessage(data), now).sent);
  }

  /** A disconnect sends nothing, and since the relay keeps no registry,
      what any later event sends depends only on the socket list. */
  lemma DisconnectHasNoEffect<D>(sockets: set<Relay.Sid>, sid: Relay.Sid)
    ensures Handle<D>(sockets, sid, Relay.Disconnect) == {}
  {
  }
}
